=== FILE: README.md ===
# Binance time-sliced buyer: a Dafny model

`scripts/binance_buyer.go` spends a quote amount (USDT) on one trading pair. It spreads the amount over a run time as a series of equal market orders. Its `main`:

1. parses the run time (`30s`, `2H`, `1D`, …) into seconds;
2. checks the side (BUY or SELL, any case) and that the symbol is quoted in USDT;
3. reads the ticker price and the account's balances;
4. settles the amount to use, which is all the available funds unless a smaller positive amount is requested;
5. builds a plan, in one of two modes:
   - **linear**: the amount rounded to cents per second is at least one unit, so one order per second of the run;
   - **quantized**: otherwise, orders of exactly one unit, evenly spaced;
6. runs the plan. Before each attempt the loop stops if less than a slice remains. Only an order request that returns without error reduces the remaining amount, by a whole slice; a failed request is logged and the loop goes on.

The model keeps every decision of the scheduling path, except those listed under "## Left out", and abstracts the venue into its answers:

- the price and the account are `Option` values, `None` when the request failed;
- the exchange's reply to each order attempt is one `bool` in `outcomes`: accepted (the request returned without error) or not.

Sleeps and the early stop are recorded as events in a trace, `Order(amount, accepted)`, `Sleep(seconds)` and `Stop`, instead of being performed or logged. Amounts are exact `real` numbers and run times are `nat` seconds.

Modules, one per file:

- `Wrappers` (`wrappers.dfy`): `Option`, `Result`, and the fatal errors of the script.
- `Duration` (`duration.dfy`): `parseDuration`.
- `Preflight` (`preflight.dfy`): side, quote asset, balance lookup loops, amount to use.
- `Planning` (`planning.dfy`): rate rounding, mode selection, plan shape.
- `Execution` (`execution.dfy`):
  - `Steps` is the function the order loops are proved against. It gives the remaining amount and the trace of a run.
  - `Schedule` is the reference schedule, with no budget check.
  - The two loops are methods proved equal to `Steps`.
- `Buyer` (`buyer.dfy`): `main` end to end.

The amount to use is a local variable of `main`, updated step by step by the loops. The loop methods therefore take it in, update it as a local, and hand it back with the trace as out-parameters. No object holds it.

Behaviour of the code that the model keeps as it is:

- Duration errors: the code has three error paths, modelled as `InvalidFormat`, `InvalidNumber` and `InvalidUnit`. The letters `h`, `d` and `w` pass the pattern and fail only at the unit table.
- Zero magnitude: `0s` is accepted and gives zero seconds and an empty plan.
- The linear loop sleeps one second after every attempt, including the last; the quantized loop pauses only between attempts.
- Only an accepted order request reduces the remaining amount; a failed one leaves it unchanged and the loop goes on to the next slot.

## Model

| member | source | states |
|---|---|---|
| Duration.ParseDuration | scripts/binance_buyer.go:264-299 | parseDuration. No ensures of its own; its promises are `ParseDigits`, `ParseRendered`, `ParseRejects`, `ParseAccepts`, `ParseRejectsOverflow` and `ParseLowerCaseUnits` |
| Duration.DecimalValue | scripts/binance_buyer.go:273 | strconv.Atoi on a digit string, before its range check. No ensures of its own; its promises are `DecimalRoundTrip` and `DecimalLeadingZero` |
| Duration.UnitSeconds | scripts/binance_buyer.go:281-296 | Exactly `s`, `m`, `H`, `D`, `W`, `M` have a multiplier; each is at least one second, and all but `s` are whole minutes |
| Duration.ParseRendered | scripts/binance_buyer.go:264-299 | A rendered magnitude up to 2^63-1 followed by any pattern letter is decided by the unit table alone: an error for a letter with no entry, else magnitude times the unit's seconds |
| Duration.ParseDigits | scripts/binance_buyer.go:264-299 | Any digit string whose value fits 64 bits, leading zeros included, followed by a table unit parses to its value times the unit's seconds |
| Duration.ParseClockUnits | scripts/binance_buyer.go:281-287 | A rendered magnitude up to 2^63-1 then `s`, `m`, `H` parse to the magnitude times 1, 60, 3600 |
| Duration.ParseCalendarUnits | scripts/binance_buyer.go:288-293 | A rendered magnitude up to 2^63-1 then `D`, `W`, `M` parse to the magnitude times 86400, 604800, 2592000 (a fixed 30-day month) |
| Duration.ParseLowerCaseUnits | scripts/binance_buyer.go:294-295 | `h`, `d`, `w` pass the pattern but are refused with the unit error, for any rendered magnitude up to 2^63-1 (above it the number error comes first) |
| Duration.MinuteIsNotMonth | scripts/binance_buyer.go:284-293 | For a positive magnitude, `m` (minutes) and `M` (30-day months) never give the same span |
| Duration.ParseIgnoresLeadingZero | scripts/binance_buyer.go:266-276 | A leading zero in the magnitude changes neither acceptance nor the value |
| Duration.ParseRejects | scripts/binance_buyer.go:266-271 | The empty text, a lone character, a non-digit before the last character, or a last character outside `smhHdDwWM` is a format error |
| Duration.ParseAccepts | scripts/binance_buyer.go:264-299 | An accepted text is digits plus one of `smHDWM`, its magnitude fits 64 bits, and the span is magnitude times unit seconds |
| Duration.ParseRejectsOverflow | scripts/binance_buyer.go:273-276 | Digits beyond 2^63-1 are refused with the number error, whatever the letter |
| Duration.DecimalRoundTrip | scripts/binance_buyer.go:273 | Reading back the decimal rendering of a number gives the number |
| Duration.DecimalLeadingZero | scripts/binance_buyer.go:273 | A leading zero does not change the value of a digit string |
| Preflight.ToUpper | scripts/binance_buyer.go:330 | Upper-casing keeps the length and maps each character by the rune rule |
| Preflight.ParseSide | scripts/binance_buyer.go:330-333 | The side check. No ensures of its own; its promise is `ParseSideAccepts` |
| Preflight.TrimSuffix | scripts/binance_buyer.go:356 | With the suffix present, result plus suffix is the symbol; otherwise the symbol is unchanged |
| Preflight.ParseSideAccepts | scripts/binance_buyer.go:330-333 | BUY is accepted exactly for the three letters in any case, SELL for the four (and the long s); anything else is the side error |
| Preflight.LookupFree | scripts/binance_buyer.go:133-163 | The result of both lookup loops (USDT at 133-143, any asset at 153-163): a failed lookup is always "not found" for the asset asked about; `LookupFindsFirst` and `LookupMissing` state the rest |
| Preflight.AssetBalance | scripts/binance_buyer.go:133-143 | The lookup loop returns the free amount of the first entry whose asset matches; it fails with "not found" exactly when no entry matches |
| Preflight.LookupFindsFirst | scripts/binance_buyer.go:153-163 | When entry k is the first with the asset, the lookup answers entry k's free amount |
| Preflight.LookupMissing | scripts/binance_buyer.go:153-163 | The lookup fails exactly when no entry carries the asset |
| Preflight.ChooseAmount | scripts/binance_buyer.go:364-371 | The amount is the available funds when the request is not positive and the request otherwise; it never exceeds the available funds; it fails exactly when a positive request exceeds them |
| Preflight.Prepare | scripts/binance_buyer.go:329-371 | The check sequence of main (side, suffix, price, balance loop, amount) agrees with `CheckFunding` on every input |
| Preflight.CheckFunding | scripts/binance_buyer.go:329-371 | The pre-flight checks. No ensures of its own; its promises are `CheckFundingPasses`, `CheckFundingAccepts` and `CheckFundingRejects`, and `Prepare` runs it with the lookup loop |
| Preflight.CheckFundingPasses | scripts/binance_buyer.go:329-371 | An input that passes every check (side, USDT suffix, price and account read, balance entry found, request not positive or affordable) gives Ok, with the funding balance (valued at the price for SELL) and the amount the override rule picks |
| Preflight.CheckFundingAccepts | scripts/binance_buyer.go:347-371 | After the checks pass: the side parsed, the symbol ends in USDT, both reads succeeded, amount ≤ available, the override rule holds, and the funds are the USDT balance for BUY and the base balance times the price for SELL |
| Preflight.CheckFundingRejects | scripts/binance_buyer.go:329-371 | The checks fail in the script's order: bad side, then foreign quote asset, then a failed price request, then a failed account request, then a missing balance entry (not found for the funding asset), then insufficient funds once the balance is known |
| Planning.Round | scripts/binance_buyer.go:375 | math.Round: the result is within one half of the input, halves going away from zero |
| Planning.RatePerSecond | scripts/binance_buyer.go:375 | The rate rounded to cents. No ensures of its own; its promises are `RateReachesOne` and `ModeSelection` |
| Planning.Truncate | scripts/binance_buyer.go:385 | int() of a float: the integer part, truncated toward zero, so never larger in magnitude than the input and less than one away from it |
| Planning.BuildPlan | scripts/binance_buyer.go:373-418 | Plan construction. No ensures of its own; its promises are `ModeSelection`, `LinearShape`, `QuantizedShape`, `PlanWithinBudget`, `EmptyPlan`, `PlanExamples` and `BuiltPlanFeasible` |
| Planning.RateReachesOne | scripts/binance_buyer.go:375 | The rate rounded to cents (halves away from zero) reaches one exactly when the exact rate reaches 0.995 |
| Planning.ModeSelection | scripts/binance_buyer.go:373-383 | For a positive run time, linear mode is chosen exactly when amount per second ≥ 0.995 |
| Planning.LinearShape | scripts/binance_buyer.go:410-418 | Linear mode: one attempt per second, one-second interval, slices that add up to the amount exactly, each at least 0.995 |
| Planning.QuantizedShape | scripts/binance_buyer.go:383-390 | Quantized mode: slice 1, count the whole units of the amount (none below 1), fewer attempts than seconds, and for a nonempty plan an interval of at least one second with count × interval ≤ seconds < count × (interval + 1) |
| Planning.PlanWithinBudget | scripts/binance_buyer.go:383-418 | A nonempty plan has a positive slice and count × slice ≤ amount |
| Planning.EmptyPlan | scripts/binance_buyer.go:385-416 | Nothing is planned exactly when the run time is zero, or the rate is below 0.995 and the amount below one unit |
| Planning.PlanExamples | scripts/binance_buyer.go:373-418 | 100 over 50 s is 50 linear slices of 2; 0.5 over an hour plans nothing; 5 over an hour is 5 units 720 s apart |
| Planning.BuiltPlanFeasible | scripts/binance_buyer.go:373-418 | Every built plan, for any amount and run time, has slices ≥ 0, unit slices in quantized mode, planned spend within the amount, and attempts and pauses that fit in the run time |
| Execution.PauseAfter | scripts/binance_buyer.go:406-408 | The pause after an attempt (406-408 quantized, 435 linear). No ensures of its own; its promise is `ScheduleSleep` |
| Execution.Steps | scripts/binance_buyer.go:392-436 | Both order loops, as a function. No ensures of its own; its promises are `Bookkeeping`, `SliceOrders`, `AttemptBound`, `SpendsPerAcceptedOrder`, `NeverOverspends`, `NeverStopsEarly`, `BudgetedRun`, `FeasibleRun` and `FeasibleSleep`, and the loop methods are proved equal to it |
| Execution.Bookkeeping | scripts/binance_buyer.go:403-432 | In any run, the remaining amount falls by exactly the sum of the accepted orders |
| Execution.SliceOrders | scripts/binance_buyer.go:397-426 | Every order a run places is for the plan's slice |
| Execution.AttemptBound | scripts/binance_buyer.go:392-436 | Accepted orders never outnumber attempts, and a run from slot i makes at most count − i attempts, whatever the budget |
| Execution.SpendsPerAcceptedOrder | scripts/binance_buyer.go:429-433 | Start minus end equals slice × accepted orders; with a non-negative slice the remaining amount never grows |
| Execution.NeverOverspends | scripts/binance_buyer.go:393-425 | Starting with zero or more, the run ends with zero or more; a stop happens only when less than a slice remains |
| Execution.NeverStopsEarly | scripts/binance_buyer.go:393-425 | With a slice for every attempt left, the loop never breaks and its trace is the planned schedule, whatever the venue answers |
| Execution.ScheduleTally | scripts/binance_buyer.go:392-409 | The planned schedule has no stop, count − i attempts, and exactly the orders the venue accepted |
| Execution.ScheduleSleep | scripts/binance_buyer.go:406-408 | The schedule sleeps one second per linear attempt, and the interval between quantized attempts with none after the last |
| Execution.BudgetedRun | scripts/binance_buyer.go:392-436 | A run funded for every planned slice makes all attempts, spends one slice per accepted order and ends between zero and the starting amount |
| Execution.FeasibleRun | scripts/binance_buyer.go:383-436 | A feasible plan's run: the full schedule, no stop, count attempts, accepted orders equal to the venue's successes, remaining = amount − slice × successes, within [0, amount] for a nonempty plan |
| Execution.FeasibleSleep | scripts/binance_buyer.go:390-436 | A feasible plan's pauses total at most the run time |
| Execution.RunQuantized | scripts/binance_buyer.go:392-409 | The quantized loop ends with the remaining amount and trace of `Steps`, and never with more than it started |
| Execution.RunLinear | scripts/binance_buyer.go:421-436 | The linear loop ends with the remaining amount and trace of `Steps`, and never with more than it started |
| Execution.Run | scripts/binance_buyer.go:383-437 | The loop of the plan's mode agrees with `Steps` |
| Buyer.Configure | scripts/binance_buyer.go:316-390 | main up to the loop. No ensures of its own; its promises are `ConfigureOk`, `ZeroRunTimeConfigures`, `ConfigureRejects` and `RunWithinFunds`, and `RunBuyer` runs it |
| Buyer.RunBuyer | scripts/binance_buyer.go:316-439 | main fails exactly when `Configure` does, with the same error; otherwise its result is the run `Steps` gives for the configured plan and amount |
| Buyer.RunWithinFunds | scripts/binance_buyer.go:364-436 | A configured run uses at most the available funds, makes every planned attempt, ends between zero and the amount to use when the plan is nonempty, and sleeps at most the run time |
| Buyer.ConfigureOk | scripts/binance_buyer.go:316-390 | main reaches its loop exactly when the run time parses and the pre-flight checks pass, and then with the plan built from the amount to use and the run time |
| Buyer.ZeroRunTimeConfigures | scripts/binance_buyer.go:264-390 | `0s` passes main's checks: a BUY of a whole 5 USDT balance over zero seconds is configured with an empty plan |
| Buyer.ConfigureRejects | scripts/binance_buyer.go:316-339 | A bad run time fails before anything else; then a bad side; then a symbol not quoted in USDT |

## Left out

- HTTP requests, request signing (HMAC-SHA256), JSON decoding and status checks are not modelled. The price and account requests are `Option` inputs; an order's reply is one `bool`, true when the request returned without error. The script never looks at the reply's status or executed quantity (lines 397-405, 426-433), so an expired or partly filled order that returns without error still spends a whole slice, and the model does the same.
- `strconv.ParseFloat` of prices and balances is not modelled: they are given as reals. A balance entry whose free amount does not parse makes the Go lookup fail; that path is not represented. The locked amount of a balance is not used by the script and not modelled.
- Floating-point arithmetic: amounts are exact reals. Repeated float subtraction can make the break at line 422 fire before the last linear attempt; the model cannot show that.
- ParseDuration: the span is an exact `nat` of seconds. `time.Duration` counts nanoseconds in 64 bits, so a magnitude times its unit above about 9.2 × 10^9 seconds wraps around in the Go code; the model does not wrap.
- ToUpper: only the runes whose upper case is an ASCII letter (a-z, U+0131, U+017F) are mapped; other runes are kept as they are, which cannot change whether the result equals BUY or SELL. Invalid UTF-8 is not represented, since strings are sequences of characters.
- RunBuyer: the venue must answer every planned attempt (`outcomes` at least as long as the plan); the count of attempts is bounded by the plan, so this only sizes the abstraction.
- RunWithinFunds: does not restate the exact remaining amount, which `Execution.FeasibleRun` states. Its bounds on the remaining amount hold for a nonempty plan only: an empty plan spends nothing, so a negative amount to use (a SELL valued at a negative price) stays negative.
- The two early returns, "Nothing to do" (lines 386-389) and "Nothing to buy" (lines 413-416), are the empty plan: no attempt and no sleep. Their log text, the final log line and every other log line are not modelled.
- Real sleeping is not modelled: pauses are `Sleep` events.
- Order events do not carry the symbol and side passed to `PlaceOrder` (lines 397, 426): both are fixed by the pre-flight checks for the whole run, so the trace records only the amount and whether the request was accepted.
- Command-line flags and the API key check (lines 302-314) are not modelled.
- `exchanges/*/main.cpp` are not part of this model: they are WebSocket clients that print frames forever and hold no scheduling logic.

=== FILE: buyer.dfy ===
/** The buyer script end to end (scripts/binance_buyer.go, main): parse the
    run time, make the pre-flight checks, build the plan and run it. The
    venue is reduced to its answers: the ticker price and the account's
    balances (None when the request failed) and, for every attempt, whether
    the order was accepted. */
module Buyer {
  import opened Wrappers
  import opened Duration
  import opened Preflight
  import opened Planning
  import opened Execution

  /** What the script settles before its first order: the funding, the run
      time in seconds and the plan. */
  datatype Setup = Setup(funding: Funding, seconds: nat, plan: Plan)

  /** The decisions of main up to the loop, in its order: the run time,
      then the side, the symbol, the price, the balance and the amount. */
  function Configure(runTime: string, side: string, symbol: string, requested: real,
                     price: Option<real>, account: Option<seq<Balance>>): Result<Setup>
  {
    match ParseDuration(runTime)
    case Err(e) => Err(e)
    case Ok(seconds) =>
      match CheckFunding(side, symbol, requested, price, account)
      case Err(e) => Err(e)
      case Ok(f) => Ok(Setup(f, seconds, BuildPlan(f.amount, seconds)))
  }

  /** main: each check in turn, a fatal error at the first that fails;
      otherwise the loop of the plan's mode, run on the amount to use. The
      venue must answer every planned attempt. It follows Configure step by
      step so that the lookup and order loops run; its ensures ties the two
      together. */
  method RunBuyer(runTime: string, side: string, symbol: string, requested: real,
                  price: Option<real>, account: Option<seq<Balance>>, outcomes: seq<bool>)
    returns (r: Result<RunState>)
    requires var c := Configure(runTime, side, symbol, requested, price, account);
      c.Ok? ==> c.value.plan.count <= |outcomes|
    ensures var c := Configure(runTime, side, symbol, requested, price, account);
      && (r.Err? <==> c.Err?)
      && (r.Err? ==> r.error == c.error)
      && (r.Ok? ==> r.value == Steps(c.value.plan, 0, c.value.funding.amount, outcomes))
  {
    var duration := ParseDuration(runTime);
    if duration.Err? {
      return Err(duration.error);
    }
    var seconds := duration.value;
    var funding := Prepare(side, symbol, requested, price, account);
    if funding.Err? {
      return Err(funding.error);
    }
    var amount := funding.value.amount;
    var plan := BuildPlan(amount, seconds);
    BuiltPlanFeasible(amount, seconds);
    var remaining, trace := Run(plan, amount, outcomes);
    return Ok(RunState(remaining, trace));
  }

  /** What a completed run guarantees: every planned attempt was made,
      none was cut short, the remaining amount lies between zero and the
      amount to use, which never exceeds the funds available, and the
      pauses fit in the run time. */
  lemma RunWithinFunds(runTime: string, side: string, symbol: string, requested: real,
                       price: Option<real>, account: Option<seq<Balance>>, outcomes: seq<bool>)
    requires var c := Configure(runTime, side, symbol, requested, price, account);
      c.Ok? && c.value.plan.count <= |outcomes|
    ensures var c := Configure(runTime, side, symbol, requested, price, account).value;
            var r := Steps(c.plan, 0, c.funding.amount, outcomes);
      && c.funding.amount <= c.funding.available
      && r.trace == Schedule(c.plan, 0, outcomes)
      && Attempts(r.trace) == c.plan.count
      && (c.plan.count > 0 ==> 0.0 <= r.remaining <= c.funding.amount)
      && SleepTotal(r.trace) <= c.seconds
  {
    var c := Configure(runTime, side, symbol, requested, price, account).value;
    CheckFundingAccepts(side, symbol, requested, price, account);
    BuiltPlanFeasible(c.funding.amount, c.seconds);
    FeasibleRun(c.plan, c.funding.amount, c.seconds, outcomes);
    FeasibleSleep(c.plan, c.funding.amount, c.seconds, outcomes);
  }

  /** The script fails before any venue request on a bad run time, a bad
      side or a symbol not quoted in USDT, in that order. */
  lemma ConfigureRejects(runTime: string, side: string, symbol: string, requested: real,
                         price: Option<real>, account: Option<seq<Balance>>)
    ensures ParseDuration(runTime).Err? ==>
      Configure(runTime, side, symbol, requested, price, account) == Err(ParseDuration(runTime).error)
    ensures ParseDuration(runTime).Ok? && ParseSide(side).Err? ==>
      Configure(runTime, side, symbol, requested, price, account) == Err(InvalidSide)
    ensures ParseDuration(runTime).Ok? && ParseSide(side).Ok? && !HasSuffix(symbol, QuoteAsset) ==>
      Configure(runTime, side, symbol, requested, price, account) == Err(UnsupportedQuote)
  {
    CheckFundingRejects(side, symbol, requested, price, account);
  }

  /** main reaches its loop exactly when the run time parses and the
      pre-flight checks pass, with the plan built from the amount to use. */
  lemma ConfigureOk(runTime: string, side: string, symbol: string, requested: real,
                    price: Option<real>, account: Option<seq<Balance>>)
    ensures Configure(runTime, side, symbol, requested, price, account).Ok?
            <==> ParseDuration(runTime).Ok? && CheckFunding(side, symbol, requested, price, account).Ok?
    ensures Configure(runTime, side, symbol, requested, price, account).Ok? ==>
      var f := CheckFunding(side, symbol, requested, price, account).value;
      var seconds := ParseDuration(runTime).value;
      Configure(runTime, side, symbol, requested, price, account).value == Setup(f, seconds, BuildPlan(f.amount, seconds))
  {
  }

  /** A zero run time passes: buying with all of a 5 USDT balance over
      "0s" is configured, with an empty plan. */
  lemma ZeroRunTimeConfigures()
    ensures var c := Configure("0s", "buy", "BTCUSDT", 0.0, Some(2.0), Some([Balance("USDT", 5.0)]));
      c.Ok? && c.value.seconds == 0 && c.value.funding.amount == 5.0 && c.value.plan.count == 0
  {
    ParseDigits("0", 's');
    assert "0" + ['s'] == "0s";
  }
}

=== FILE: duration.dfy ===
/** The run-time argument of the buyer script: a decimal magnitude followed by
    one unit letter, normalised to whole seconds (scripts/binance_buyer.go,
    parseDuration). */
module Duration {
  import opened Wrappers

  /** The largest magnitude strconv.Atoi accepts on a 64-bit platform. */
  const MaxInt64: nat := 0x7fff_ffff_ffff_ffff

  /** The letters the duration pattern admits after the digits. Only some of
      them have a multiplier (see UnitSeconds). */
  const PatternUnits: string := "smhHdDwWM"

  predicate IsDigit(c: char) {
    '0' <= c <= '9'
  }

  predicate AllDigits(s: string) {
    forall i :: 0 <= i < |s| ==> IsDigit(s[i])
  }

  function DigitValue(c: char): nat
    requires IsDigit(c)
  {
    (c as int - '0' as int) as nat
  }

  function Digit(d: nat): (c: char)
    requires d < 10
    ensures IsDigit(c) && DigitValue(c) == d
  {
    ('0' as int + d) as char
  }

  /** The value of a string of decimal digits, most significant first. */
  function DecimalValue(s: string): nat
    requires AllDigits(s)
  {
    if s == [] then 0 else DecimalValue(s[..|s| - 1]) * 10 + DigitValue(s[|s| - 1])
  }

  /** The shortest decimal rendering of n (no leading zeros). */
  function Decimal(n: nat): (s: string)
    ensures 1 <= |s| && AllDigits(s)
  {
    if n < 10 then [Digit(n)] else Decimal(n / 10) + [Digit(n % 10)]
  }

  /** The number of seconds in one unit. Month is a fixed 30 days. The
      lower-case letters h, d and w pass the pattern but have no entry. */
  function UnitSeconds(u: char): (r: Option<nat>)
    ensures r.Some? <==> u in "smHDWM"
    ensures r.Some? ==> r.value >= 1 && r.value % 60 == (if u == 's' then 1 else 0)
  {
    match u
    case 's' => Some(1)
    case 'm' => Some(60)
    case 'H' => Some(3600)
    case 'D' => Some(24 * 3600)
    case 'W' => Some(7 * 24 * 3600)
    case 'M' => Some(30 * 24 * 3600)
    case _ => None
  }

  /** parseDuration: the pattern ^(\d+)([smhHdDwWM])$ first, then the
      conversion of the digits, then the unit table. */
  function ParseDuration(text: string): Result<nat> {
    if |text| < 2 || !AllDigits(text[..|text| - 1]) || text[|text| - 1] !in PatternUnits then
      Err(InvalidFormat)
    else
      var value := DecimalValue(text[..|text| - 1]);
      if value > MaxInt64 then
        Err(InvalidNumber)
      else
        match UnitSeconds(text[|text| - 1])
        case None => Err(InvalidUnit)
        case Some(perUnit) => Ok(value * perUnit)
  }

  /** Reading back a rendered number gives the number. */
  lemma {:induction false} DecimalRoundTrip(n: nat)
    ensures DecimalValue(Decimal(n)) == n
  {
    if n >= 10 {
      var s := Decimal(n);
      assert s[..|s| - 1] == Decimal(n / 10);
      DecimalRoundTrip(n / 10);
    }
  }

  /** A leading zero does not change the value of a digit string. */
  lemma {:induction false} DecimalLeadingZero(s: string)
    requires AllDigits(s)
    ensures AllDigits("0" + s) && DecimalValue("0" + s) == DecimalValue(s)
  {
    if s != [] {
      var t := "0" + s;
      assert t[..|t| - 1] == "0" + s[..|s| - 1];
      DecimalLeadingZero(s[..|s| - 1]);
    }
  }

  /** Any digit string whose value fits 64 bits, followed by a unit of the
      table, parses to its value times the unit's seconds; leading zeros
      included. */
  lemma ParseDigits(digits: string, unit: char)
    requires 1 <= |digits| && AllDigits(digits) && DecimalValue(digits) <= MaxInt64
    requires UnitSeconds(unit).Some?
    ensures ParseDuration(digits + [unit]) == Ok(DecimalValue(digits) * UnitSeconds(unit).value)
  {
    assert (digits + [unit])[..|digits|] == digits;
  }

  /** A rendered magnitude followed by a pattern letter is decided by the
      unit table alone. */
  lemma ParseRendered(n: nat, unit: char)
    requires n <= MaxInt64 && unit in PatternUnits
    ensures ParseDuration(Decimal(n) + [unit])
            == if UnitSeconds(unit).None? then Err(InvalidUnit) else Ok(n * UnitSeconds(unit).value)
  {
    DecimalRoundTrip(n);
    var d := Decimal(n);
    assert (d + [unit])[..|d|] == d;
  }

  /** The clock units of the table, each applied to a rendered magnitude,
      parse to the magnitude times 1, 60 and 3600 seconds. */
  lemma ParseClockUnits(n: nat)
    requires n <= MaxInt64
    ensures ParseDuration(Decimal(n) + "s") == Ok(n)
    ensures ParseDuration(Decimal(n) + "m") == Ok(n * 60)
    ensures ParseDuration(Decimal(n) + "H") == Ok(n * 3600)
  {
    ParseUnit(n, "s", 1);
    ParseUnit(n, "m", 60);
    ParseUnit(n, "H", 3600);
  }

  /** The calendar units of the table, each applied to a rendered
      magnitude, parse to the magnitude times 86400, 604800 and 2592000
      seconds: a day, a week and a fixed 30-day month. */
  lemma ParseCalendarUnits(n: nat)
    requires n <= MaxInt64
    ensures ParseDuration(Decimal(n) + "D") == Ok(n * 86400)
    ensures ParseDuration(Decimal(n) + "W") == Ok(n * 604800)
    ensures ParseDuration(Decimal(n) + "M") == Ok(n * 2592000)
  {
    ParseUnit(n, "D", 86400);
    ParseUnit(n, "W", 604800);
    ParseUnit(n, "M", 2592000);
  }

  /** One unit of the table applied to a rendered magnitude. */
  lemma ParseUnit(n: nat, unit: string, seconds: nat)
    requires n <= MaxInt64 && |unit| == 1 && UnitSeconds(unit[0]) == Some(seconds)
    ensures ParseDuration(Decimal(n) + unit) == Ok(n * seconds)
  {
    assert unit == [unit[0]];
    ParseRendered(n, unit[0]);
  }

  /** The lower-case letters h, d and w pass the pattern but are refused by
      the unit table, whatever the magnitude. */
  lemma ParseLowerCaseUnits(n: nat)
    requires n <= MaxInt64
    ensures ParseDuration(Decimal(n) + "h") == Err(InvalidUnit)
    ensures ParseDuration(Decimal(n) + "d") == Err(InvalidUnit)
    ensures ParseDuration(Decimal(n) + "w") == Err(InvalidUnit)
  {
    ParseRendered(n, 'h');
    ParseRendered(n, 'd');
    ParseRendered(n, 'w');
  }

  /** Minutes and months are told apart by case: a positive magnitude in
      minutes never parses to the same span as in months. */
  lemma MinuteIsNotMonth(n: nat)
    requires 0 < n <= MaxInt64
    ensures ParseDuration(Decimal(n) + "m") != ParseDuration(Decimal(n) + "M")
  {
    ParseUnit(n, "m", 60);
    ParseUnit(n, "M", 2592000);
  }

  /** Leading zeros in the magnitude are accepted and ignored. */
  lemma ParseIgnoresLeadingZero(digits: string, unit: char)
    requires 1 <= |digits|
    ensures ParseDuration("0" + digits + [unit]) == ParseDuration(digits + [unit])
  {
    var long, short := "0" + digits + [unit], digits + [unit];
    assert long[..|long| - 1] == "0" + digits;
    assert short[..|short| - 1] == digits;
    if AllDigits(digits) {
      DecimalLeadingZero(digits);
    } else {
      var k :| 0 <= k < |digits| && !IsDigit(digits[k]);
      assert ("0" + digits)[k + 1] == digits[k];
    }
  }

  /** Anything but digits followed by one pattern letter is a format error:
      the empty text, a lone letter, a non-digit anywhere before the last
      character (a second unit letter, a sign, a dot, white space) or a last
      character outside the pattern. */
  lemma ParseRejects(text: string, k: nat)
    requires |text| < 2 || (k < |text| - 1 && !IsDigit(text[k])) || text[|text| - 1] !in PatternUnits
    ensures ParseDuration(text) == Err(InvalidFormat)
  {
    if 2 <= |text| && k < |text| - 1 && !IsDigit(text[k]) {
      assert text[..|text| - 1][k] == text[k];
    }
  }

  /** What an accepted text looks like: digits, then one of the six table
      units, with a magnitude that fits 64 bits; the span is the magnitude
      times the unit's seconds. */
  lemma ParseAccepts(text: string)
    requires ParseDuration(text).Ok?
    ensures 2 <= |text| && AllDigits(text[..|text| - 1])
    ensures text[|text| - 1] in "smHDWM"
    ensures DecimalValue(text[..|text| - 1]) <= MaxInt64
    ensures ParseDuration(text).value
            == DecimalValue(text[..|text| - 1]) * UnitSeconds(text[|text| - 1]).value
  {
  }

  /** A magnitude beyond 64 bits is refused whatever the unit letter. */
  lemma ParseRejectsOverflow(digits: string, unit: char)
    requires AllDigits(digits) && 1 <= |digits| && unit in PatternUnits
    requires DecimalValue(digits) > MaxInt64
    ensures ParseDuration(digits + [unit]) == Err(InvalidNumber)
  {
    assert (digits + [unit])[..|digits|] == digits;
  }
}

=== FILE: execution.dfy ===
/** The order loops of the buyer script (scripts/binance_buyer.go, main):
    one attempt per planned slot, the remaining amount reduced only by
    accepted orders, a stop when what remains cannot pay for the next slice,
    and the sleeps between attempts. The venue is reduced to its answers:
    outcomes[k] tells whether the order request of attempt k returned
    without error (the reply's status and executed quantity are never
    looked at, so an accepted order spends a whole slice). Sleeps and the early
    stop are recorded as events instead of being performed or logged. */
module Execution {
  import opened Planning

  datatype Event =
    | Order(amount: real, accepted: bool)  // a market order for amount; accepted: the request returned without error
    | Sleep(seconds: nat)                  // a pause between attempts
    | Stop                                 // the loop left early: too little remains

  /** Where a run ends: the amount still to spend and the events emitted. */
  datatype RunState = RunState(remaining: real, trace: seq<Event>)

  /** The pause after attempt i: one second after every linear attempt, the
      interval after every quantized attempt but the last. */
  function PauseAfter(plan: Plan, i: nat): seq<Event> {
    if plan.mode == Linear then [Sleep(1)]
    else if i + 1 < plan.count then [Sleep(plan.interval)]
    else []
  }

  /** The loop from attempt i on, with remaining still to spend. */
  function Steps(plan: Plan, i: nat, remaining: real, outcomes: seq<bool>): RunState
    requires plan.count <= |outcomes|
    decreases plan.count - i
  {
    if plan.count <= i then RunState(remaining, [])
    else if remaining < plan.slice then RunState(remaining, [Stop])
    else
      var accepted := outcomes[i];
      var rest := Steps(plan, i + 1, if accepted then remaining - plan.slice else remaining, outcomes);
      RunState(rest.remaining, [Order(plan.slice, accepted)] + PauseAfter(plan, i) + rest.trace)
  }

  /** The schedule as planned, attempts i to count - 1 with no budget check:
      the reference the loop is compared with. */
  function Schedule(plan: Plan, i: nat, outcomes: seq<bool>): seq<Event>
    requires plan.count <= |outcomes|
    decreases plan.count - i
  {
    if plan.count <= i then []
    else [Order(plan.slice, outcomes[i])] + PauseAfter(plan, i) + Schedule(plan, i + 1, outcomes)
  }

  /** The number of order attempts in a trace. */
  function Attempts(trace: seq<Event>): nat {
    if trace == [] then 0 else (if trace[0].Order? then 1 else 0) + Attempts(trace[1..])
  }

  /** The number of accepted orders in a trace. */
  function Accepted(trace: seq<Event>): nat {
    if trace == [] then 0
    else (if trace[0].Order? && trace[0].accepted then 1 else 0) + Accepted(trace[1..])
  }

  /** The seconds spent sleeping in a trace. */
  function SleepTotal(trace: seq<Event>): nat {
    if trace == [] then 0
    else (if trace[0].Sleep? then trace[0].seconds else 0) + SleepTotal(trace[1..])
  }

  /** The quote amount of the accepted orders in a trace. */
  function Spent(trace: seq<Event>): real {
    if trace == [] then 0.0
    else (if trace[0].Order? && trace[0].accepted then trace[0].amount else 0.0) + Spent(trace[1..])
  }

  function CountTrue(bs: seq<bool>): nat {
    if bs == [] then 0 else (if bs[0] then 1 else 0) + CountTrue(bs[1..])
  }

  /** Every order in the trace is for the same amount. */
  predicate OrdersOf(trace: seq<Event>, amount: real) {
    forall k :: 0 <= k < |trace| && trace[k].Order? ==> trace[k].amount == amount
  }

  /** The tallies of a trace with one more event in front. */
  lemma TallyCons(e: Event, t: seq<Event>)
    ensures Attempts([e] + t) == (if e.Order? then 1 else 0) + Attempts(t)
    ensures Accepted([e] + t) == (if e.Order? && e.accepted then 1 else 0) + Accepted(t)
    ensures SleepTotal([e] + t) == (if e.Sleep? then e.seconds else 0) + SleepTotal(t)
    ensures Spent([e] + t) == (if e.Order? && e.accepted then e.amount else 0.0) + Spent(t)
  {
    assert ([e] + t)[0] == e;
    assert ([e] + t)[1..] == t;
  }

  /** The tallies add up over concatenation. */
  lemma {:induction false} TallyAppend(a: seq<Event>, b: seq<Event>)
    ensures Attempts(a + b) == Attempts(a) + Attempts(b)
    ensures Accepted(a + b) == Accepted(a) + Accepted(b)
    ensures SleepTotal(a + b) == SleepTotal(a) + SleepTotal(b)
    ensures Spent(a + b) == Spent(a) + Spent(b)
  {
    if a != [] {
      assert a + b == [a[0]] + (a[1..] + b);
      TallyCons(a[0], a[1..] + b);
      TallyCons(a[0], a[1..]);
      assert a == [a[0]] + a[1..];
      TallyAppend(a[1..], b);
    } else {
      assert a + b == b;
    }
  }

  /** When every order is for the same amount, the accepted ones spend that
      amount each. */
  lemma {:induction false} UniformSpending(trace: seq<Event>, amount: real)
    requires OrdersOf(trace, amount)
    ensures Spent(trace) == amount * Accepted(trace) as real
  {
    if trace != [] {
      var e, t := trace[0], trace[1..];
      assert trace == [e] + t;
      TallyCons(e, t);
      assert OrdersOf(t, amount) by {
        forall k | 0 <= k < |t| && t[k].Order? ensures t[k].amount == amount {
          assert t[k] == trace[k + 1];
        }
      }
      UniformSpending(t, amount);
      if e.Order? && e.accepted {
        OneMoreSlice(amount, Accepted(t), Spent(t));
      }
    }
  }

  /** Spending one more slice adds one to the slices spent. */
  lemma OneMoreSlice(slice: real, taken: nat, spent: real)
    requires spent == slice * taken as real
    ensures slice + spent == slice * (taken + 1) as real
  {
  }

  /** A pause holds no attempt and no stop; it sleeps its seconds. */
  lemma PauseTally(plan: Plan, i: nat)
    ensures var pause := PauseAfter(plan, i);
      && Attempts(pause) == 0 && Accepted(pause) == 0 && Spent(pause) == 0.0 && Stop !in pause
      && OrdersOf(pause, plan.slice)
      && SleepTotal(pause) == if plan.mode == Linear then 1
                              else if i + 1 < plan.count then plan.interval
                              else 0
  {
    var pause := PauseAfter(plan, i);
    if pause != [] {
      TallyCons(pause[0], []);
      assert pause == [pause[0]] + [];
    }
  }

  /** The tallies of one attempt and the pause after it. */
  lemma StepTally(plan: Plan, i: nat, accepted: bool)
    ensures var head := [Order(plan.slice, accepted)] + PauseAfter(plan, i);
      && Attempts(head) == 1 && Accepted(head) == (if accepted then 1 else 0)
      && Spent(head) == (if accepted then plan.slice else 0.0)
      && SleepTotal(head) == SleepTotal(PauseAfter(plan, i))
      && Stop !in head && OrdersOf(head, plan.slice)
  {
    TallyCons(Order(plan.slice, accepted), PauseAfter(plan, i));
    PauseTally(plan, i);
  }

  /** One attempt of the loop: when an attempt is due and a slice remains,
      the run is that attempt, its pause, then the run from the next slot. */
  lemma StepOnce(plan: Plan, i: nat, remaining: real, outcomes: seq<bool>)
    requires plan.count <= |outcomes| && i < plan.count && plan.slice <= remaining
    ensures var accepted := outcomes[i];
            var rest := Steps(plan, i + 1, if accepted then remaining - plan.slice else remaining, outcomes);
            var head := [Order(plan.slice, accepted)] + PauseAfter(plan, i);
      && Steps(plan, i, remaining, outcomes) == RunState(rest.remaining, head + rest.trace)
      && Attempts(head) == 1 && Accepted(head) == (if accepted then 1 else 0)
      && Spent(head) == (if accepted then plan.slice else 0.0)
      && Stop !in head && OrdersOf(head, plan.slice)
  {
    StepTally(plan, i, outcomes[i]);
  }

  /** Two traces whose orders are all for one amount make such a trace. */
  lemma OrdersOfAppend(a: seq<Event>, b: seq<Event>, amount: real)
    requires OrdersOf(a, amount) && OrdersOf(b, amount)
    ensures OrdersOf(a + b, amount)
  {
    forall k | 0 <= k < |a + b| && (a + b)[k].Order? ensures (a + b)[k].amount == amount {
      if k >= |a| {
        assert (a + b)[k] == b[k - |a|];
      }
    }
  }

  /** Budget bookkeeping of any run: the remaining amount falls by exactly
      what the accepted orders spent. */
  lemma {:induction false} Bookkeeping(plan: Plan, i: nat, remaining: real, outcomes: seq<bool>)
    requires plan.count <= |outcomes|
    ensures var r := Steps(plan, i, remaining, outcomes);
      r.remaining == remaining - Spent(r.trace)
    decreases plan.count - i
  {
    var r := Steps(plan, i, remaining, outcomes);
    if i < plan.count && plan.slice <= remaining {
      var next := if outcomes[i] then remaining - plan.slice else remaining;
      var rest := Steps(plan, i + 1, next, outcomes);
      var head := [Order(plan.slice, outcomes[i])] + PauseAfter(plan, i);
      StepOnce(plan, i, remaining, outcomes);
      Bookkeeping(plan, i + 1, next, outcomes);
      TallyAppend(head, rest.trace);
    } else if r.trace != [] {
      assert r.trace == [Stop] + [];
      TallyCons(Stop, []);
    }
  }

  /** Every order of a run is for one slice. */
  lemma {:induction false} SliceOrders(plan: Plan, i: nat, remaining: real, outcomes: seq<bool>)
    requires plan.count <= |outcomes|
    ensures OrdersOf(Steps(plan, i, remaining, outcomes).trace, plan.slice)
    decreases plan.count - i
  {
    if i < plan.count && plan.slice <= remaining {
      var next := if outcomes[i] then remaining - plan.slice else remaining;
      var head := [Order(plan.slice, outcomes[i])] + PauseAfter(plan, i);
      StepOnce(plan, i, remaining, outcomes);
      SliceOrders(plan, i + 1, next, outcomes);
      OrdersOfAppend(head, Steps(plan, i + 1, next, outcomes).trace, plan.slice);
    }
  }

  /** Accepted never outnumber attempts, and a run from slot i makes at most
      the attempts still planned, whatever the budget. */
  lemma {:induction false} AttemptBound(plan: Plan, i: nat, remaining: real, outcomes: seq<bool>)
    requires plan.count <= |outcomes|
    ensures var r := Steps(plan, i, remaining, outcomes);
      && Accepted(r.trace) <= Attempts(r.trace)
      && (i <= plan.count ==> Attempts(r.trace) <= plan.count - i)
    decreases plan.count - i
  {
    var r := Steps(plan, i, remaining, outcomes);
    if i < plan.count && plan.slice <= remaining {
      var next := if outcomes[i] then remaining - plan.slice else remaining;
      var rest := Steps(plan, i + 1, next, outcomes);
      var head := [Order(plan.slice, outcomes[i])] + PauseAfter(plan, i);
      StepOnce(plan, i, remaining, outcomes);
      AttemptBound(plan, i + 1, next, outcomes);
      TallyAppend(head, rest.trace);
    } else if r.trace != [] {
      assert r.trace == [Stop] + [];
      TallyCons(Stop, []);
    }
  }

  /** Each accepted order takes one slice from the remaining amount: what is
      spent is the slice times the accepted orders, and with a slice of zero or more
      the remaining amount never grows. */
  lemma SpendsPerAcceptedOrder(plan: Plan, i: nat, remaining: real, outcomes: seq<bool>)
    requires plan.count <= |outcomes|
    ensures var r := Steps(plan, i, remaining, outcomes);
      && remaining - r.remaining == plan.slice * Accepted(r.trace) as real
      && (0.0 <= plan.slice ==> r.remaining <= remaining)
  {
    var r := Steps(plan, i, remaining, outcomes);
    Bookkeeping(plan, i, remaining, outcomes);
    SliceOrders(plan, i, remaining, outcomes);
    SpentInSlices(remaining, r.remaining, r.trace, plan.slice);
  }

  /** A budget reduced by what a trace of equal orders spent is reduced by
      one slice per accepted order. */
  lemma SpentInSlices(start: real, end: real, trace: seq<Event>, slice: real)
    requires end == start - Spent(trace) && OrdersOf(trace, slice)
    ensures start - end == slice * Accepted(trace) as real
    ensures 0.0 <= slice ==> end <= start
  {
    UniformSpending(trace, slice);
    if 0.0 <= slice {
      NonNegativeProduct(slice, Accepted(trace) as real);
    }
  }

  /** The loop never spends what it does not have: a run that starts with
      zero or more ends with zero or more, and a stop happens only when less
      than a slice remains. */
  lemma {:induction false} NeverOverspends(plan: Plan, i: nat, remaining: real, outcomes: seq<bool>)
    requires plan.count <= |outcomes|
    ensures var r := Steps(plan, i, remaining, outcomes);
      && (0.0 <= remaining ==> 0.0 <= r.remaining)
      && (Stop in r.trace ==> r.remaining < plan.slice)
    decreases plan.count - i
  {
    if i < plan.count && plan.slice <= remaining {
      var next := if outcomes[i] then remaining - plan.slice else remaining;
      StepOnce(plan, i, remaining, outcomes);
      NeverOverspends(plan, i + 1, next, outcomes);
    }
  }

  lemma NonNegativeProduct(a: real, b: real)
    requires 0.0 <= a && 0.0 <= b
    ensures 0.0 <= a * b
  {
  }

  /** With a slice's worth for every remaining attempt, the loop never stops
      early: every planned attempt is made, whatever the venue answers. */
  lemma {:induction false} NeverStopsEarly(plan: Plan, i: nat, remaining: real, outcomes: seq<bool>)
    requires plan.count <= |outcomes| && 0.0 <= plan.slice && i <= plan.count
    requires plan.slice * (plan.count - i) as real <= remaining
    ensures Steps(plan, i, remaining, outcomes).trace == Schedule(plan, i, outcomes)
    decreases plan.count - i
  {
    if i < plan.count {
      var left := (plan.count - i - 1) as real;
      assert plan.slice * (plan.count - i) as real == plan.slice * left + plan.slice;
      assert plan.slice * left >= 0.0 by { NonNegativeProduct(plan.slice, left); }
      var next := if outcomes[i] then remaining - plan.slice else remaining;
      NeverStopsEarly(plan, i + 1, next, outcomes);
    }
  }

  /** What the planned schedule holds from attempt i on: one attempt per
      slot and the orders the venue accepted, with no stop. */
  lemma {:induction false} ScheduleTally(plan: Plan, i: nat, outcomes: seq<bool>)
    requires plan.count <= |outcomes| && i <= plan.count
    ensures var s := Schedule(plan, i, outcomes);
      && Stop !in s
      && Attempts(s) == plan.count - i
      && Accepted(s) == CountTrue(outcomes[i..plan.count])
    decreases plan.count - i
  {
    if i < plan.count {
      var head := [Order(plan.slice, outcomes[i])] + PauseAfter(plan, i);
      var tail := Schedule(plan, i + 1, outcomes);
      ScheduleTally(plan, i + 1, outcomes);
      StepTally(plan, i, outcomes[i]);
      TallyAppend(head, tail);
      assert outcomes[i..plan.count] == [outcomes[i]] + outcomes[i + 1..plan.count];
    }
  }

  /** The sleeps of the planned schedule from attempt i on: one second per
      linear attempt; the interval between quantized attempts, none after
      the last. */
  lemma {:induction false} ScheduleSleep(plan: Plan, i: nat, outcomes: seq<bool>)
    requires plan.count <= |outcomes| && i <= plan.count
    ensures SleepTotal(Schedule(plan, i, outcomes))
            == if plan.mode == Linear then plan.count - i
               else if i < plan.count then (plan.count - 1 - i) * plan.interval
               else 0
    decreases plan.count - i
  {
    if i < plan.count {
      var head := [Order(plan.slice, outcomes[i])] + PauseAfter(plan, i);
      var tail := Schedule(plan, i + 1, outcomes);
      ScheduleSleep(plan, i + 1, outcomes);
      StepTally(plan, i, outcomes[i]);
      TallyAppend(head, tail);
      if plan.mode == Quantized && i + 1 < plan.count {
        var k, m := plan.interval, plan.count - 1 - (i + 1);
        assert (m + 1) * k == k + m * k;
      }
    }
  }

  /** A run that starts with a slice for every planned attempt makes all
      of them, spends one slice per accepted order and ends with between zero and the
      starting amount. */
  lemma BudgetedRun(plan: Plan, amount: real, outcomes: seq<bool>)
    requires plan.count <= |outcomes| && 0.0 <= plan.slice
    requires plan.slice * plan.count as real <= amount
    ensures var r := Steps(plan, 0, amount, outcomes);
      && r.trace == Schedule(plan, 0, outcomes)
      && r.remaining == amount - plan.slice * CountTrue(outcomes[..plan.count]) as real
      && 0.0 <= r.remaining <= amount
  {
    NonNegativeProduct(plan.slice, plan.count as real);
    NeverStopsEarly(plan, 0, amount, outcomes);
    ScheduleTally(plan, 0, outcomes);
    assert outcomes[0..plan.count] == outcomes[..plan.count];
    SpendsPerAcceptedOrder(plan, 0, amount, outcomes);
    NeverOverspends(plan, 0, amount, outcomes);
  }

  /** The whole run of a feasible plan, started with the amount it was
      planned for: it makes every planned attempt (failures do not end it)
      and spends exactly one slice per accepted order, never more than the
      amount. */
  lemma FeasibleRun(plan: Plan, amount: real, seconds: nat, outcomes: seq<bool>)
    requires plan.count <= |outcomes| && Feasible(plan, amount, seconds)
    ensures var r := Steps(plan, 0, amount, outcomes);
      && r.trace == Schedule(plan, 0, outcomes)
      && Stop !in r.trace
      && Attempts(r.trace) == plan.count
      && Accepted(r.trace) == CountTrue(outcomes[..plan.count])
      && r.remaining == amount - plan.slice * CountTrue(outcomes[..plan.count]) as real
      && (plan.count > 0 ==> 0.0 <= r.remaining <= amount)
  {
    ScheduleTally(plan, 0, outcomes);
    assert outcomes[0..plan.count] == outcomes[..plan.count];
    if plan.count > 0 {
      BudgetedRun(plan, amount, outcomes);
    } else {
      assert outcomes[..plan.count] == [];
    }
  }

  /** The planned pauses of a feasible plan fit in the run time: one
      second per linear attempt, fewer intervals than attempts in
      quantized mode. */
  lemma FeasibleSleep(plan: Plan, amount: real, seconds: nat, outcomes: seq<bool>)
    requires plan.count <= |outcomes| && Feasible(plan, amount, seconds)
    ensures SleepTotal(Schedule(plan, 0, outcomes)) <= seconds
  {
    ScheduleSleep(plan, 0, outcomes);
    if plan.mode == Quantized && plan.count > 0 {
      var n, k := plan.count, plan.interval;
      assert (n - 1) * k + k == n * k;
    }
  }

  /** The loop invariant carried across one attempt: the run from slot i
      with what has been emitted so far is the run from slot i + 1 with the
      attempt and its pause emitted too. */
  lemma Advance(plan: Plan, i: nat, remaining: real, done: seq<Event>, outcomes: seq<bool>)
    requires plan.count <= |outcomes| && i < plan.count && plan.slice <= remaining
    ensures var accepted := outcomes[i];
            var next := if accepted then remaining - plan.slice else remaining;
            var r := Steps(plan, i, remaining, outcomes);
            var rest := Steps(plan, i + 1, next, outcomes);
      RunState(r.remaining, done + r.trace)
      == RunState(rest.remaining, (done + ([Order(plan.slice, accepted)] + PauseAfter(plan, i))) + rest.trace)
  {
    var step := [Order(plan.slice, outcomes[i])] + PauseAfter(plan, i);
    var rest := Steps(plan, i + 1, if outcomes[i] then remaining - plan.slice else remaining, outcomes);
    assert done + (step + rest.trace) == (done + step) + rest.trace;
  }

  /** The quantized loop: count orders of one unit, interval seconds
      apart; before each, stop if less than one unit remains. */
  method RunQuantized(plan: Plan, amount: real, outcomes: seq<bool>)
    returns (remaining: real, trace: seq<Event>)
    requires plan.mode == Quantized && plan.slice == 1.0 && plan.count <= |outcomes|
    ensures RunState(remaining, trace) == Steps(plan, 0, amount, outcomes)
    ensures remaining <= amount
  {
    var count, interval := plan.count, plan.interval;
    remaining, trace := amount, [];
    var i := 0;
    while i < count
      invariant i <= count
      invariant Steps(plan, 0, amount, outcomes)
                == RunState(Steps(plan, i, remaining, outcomes).remaining,
                            trace + Steps(plan, i, remaining, outcomes).trace)
    {
      if remaining < 1.0 {
        trace := trace + [Stop];
        break;
      }
      var accepted := outcomes[i];
      Advance(plan, i, remaining, trace, outcomes);
      ghost var before := trace;
      if accepted {
        remaining := remaining - 1.0;
      }
      trace := trace + [Order(1.0, accepted)];
      if i < count - 1 {
        trace := trace + [Sleep(interval)];
      }
      assert trace == before + ([Order(1.0, accepted)] + PauseAfter(plan, i));
      i := i + 1;
    }
    SpendsPerAcceptedOrder(plan, 0, amount, outcomes);
  }

  /** The linear loop: count orders of slice each, one second of sleep
      after every one; before each, stop if less than a slice remains. */
  method RunLinear(plan: Plan, amount: real, outcomes: seq<bool>)
    returns (remaining: real, trace: seq<Event>)
    requires plan.mode == Linear && 0.0 <= plan.slice && plan.count <= |outcomes|
    ensures RunState(remaining, trace) == Steps(plan, 0, amount, outcomes)
    ensures remaining <= amount
  {
    var count, slice := plan.count, plan.slice;
    remaining, trace := amount, [];
    var i := 0;
    while i < count
      invariant i <= count
      invariant Steps(plan, 0, amount, outcomes)
                == RunState(Steps(plan, i, remaining, outcomes).remaining,
                            trace + Steps(plan, i, remaining, outcomes).trace)
    {
      if remaining < slice {
        trace := trace + [Stop];
        break;
      }
      var accepted := outcomes[i];
      Advance(plan, i, remaining, trace, outcomes);
      assert [Order(slice, accepted)] + PauseAfter(plan, i) == [Order(slice, accepted), Sleep(1)];
      if accepted {
        remaining := remaining - slice;
      }
      trace := trace + [Order(slice, accepted), Sleep(1)];
      i := i + 1;
    }
    SpendsPerAcceptedOrder(plan, 0, amount, outcomes);
  }

  /** Run a plan: the quantized loop when the rounded rate is below one
      unit per second, the linear loop otherwise. */
  method Run(plan: Plan, amount: real, outcomes: seq<bool>)
    returns (remaining: real, trace: seq<Event>)
    requires plan.count <= |outcomes| && 0.0 <= plan.slice
    requires plan.mode == Quantized ==> plan.slice == 1.0
    ensures RunState(remaining, trace) == Steps(plan, 0, amount, outcomes)
    ensures remaining <= amount
  {
    if plan.mode == Quantized {
      remaining, trace := RunQuantized(plan, amount, outcomes);
    } else {
      remaining, trace := RunLinear(plan, amount, outcomes);
    }
  }
}

=== FILE: planning.dfy ===
/** How the buyer script turns an amount and a run time into a schedule of
    equal market orders (scripts/binance_buyer.go, main): the per-second
    rate rounded to cents decides between one-unit orders spread over the
    run and one order every second. */
module Planning {

  /** Linear: one order every second. Quantized: orders of exactly one unit
      of the quote asset, evenly spaced. */
  datatype Mode = Linear | Quantized

  /** A schedule: count attempts of slice each. In quantized mode the
      attempts are interval seconds apart; in linear mode each attempt is
      followed by an interval (one second) of sleep. */
  datatype Plan = Plan(mode: Mode, count: nat, slice: real, interval: nat)

  /** math.Round: the nearest integer, halves rounded away from zero. */
  function Round(x: real): (r: int)
    ensures x >= 0.0 ==> r as real - 0.5 <= x < r as real + 0.5
    ensures x < 0.0 ==> r as real - 0.5 < x <= r as real + 0.5
  {
    if x >= 0.0 then (x + 0.5).Floor else -((-x + 0.5).Floor)
  }

  /** A float-to-int conversion: truncation toward zero. */
  function Truncate(x: real): (r: int)
    ensures x >= 0.0 ==> 0 <= r && r as real <= x < r as real + 1.0
    ensures x < 0.0 ==> r <= 0 && r as real - 1.0 < x <= r as real
  {
    if x >= 0.0 then x.Floor else -((-x).Floor)
  }

  /** The amount per second, rounded to two decimals. */
  function RatePerSecond(amount: real, seconds: nat): real
    requires seconds > 0
  {
    Round(amount / seconds as real * 100.0) as real / 100.0
  }

  /** The schedule for spending amount over seconds. A zero run time has
      no rate: the script divides by zero, and whichever mode the resulting
      infinity or NaN selects, it places no order. */
  function BuildPlan(amount: real, seconds: nat): Plan {
    if seconds == 0 then
      Plan(if amount < 0.0 then Quantized else Linear, 0, if amount < 0.0 then 1.0 else 0.0, 0)
    else if RatePerSecond(amount, seconds) < 1.0 then
      var n := Truncate(amount);
      if n <= 0 then Plan(Quantized, 0, 1.0, 0)
      else Plan(Quantized, n, 1.0, seconds / n)
    else
      Plan(Linear, seconds, amount / seconds as real, 1)
  }

  /** The rounded rate reaches one unit exactly when the exact rate reaches
      0.995: the rounding threshold of math.Round at two decimals. */
  lemma RateReachesOne(x: real)
    ensures Round(x * 100.0) as real / 100.0 >= 1.0 <==> x >= 0.995
  {
    var r := Round(x * 100.0);
    if x >= 0.0 {
      assert r == (x * 100.0 + 0.5).Floor;
      assert r >= 100 <==> x * 100.0 + 0.5 >= 100.0;
    } else {
      assert r <= 0;
    }
  }

  /** Linear mode is chosen exactly when the amount per second is at least
      0.995 (so that it rounds to one unit or more). */
  lemma ModeSelection(amount: real, seconds: nat)
    requires seconds > 0
    ensures BuildPlan(amount, seconds).mode == Linear <==> amount / seconds as real >= 0.995
  {
    RateReachesOne(amount / seconds as real);
  }

  /** Linear mode: one attempt per second of the run, the amount split into
      equal slices that add up to it exactly, each slice at least 0.995. */
  lemma LinearShape(amount: real, seconds: nat)
    requires seconds > 0 && BuildPlan(amount, seconds).mode == Linear
    ensures var p := BuildPlan(amount, seconds);
      && p.count == seconds && p.interval == 1
      && p.slice * p.count as real == amount
      && p.slice >= 0.995
  {
    ModeSelection(amount, seconds);
  }

  /** Quantized mode: whole units, one per attempt, as many as the amount
      holds; the run time divided evenly (rounded down) between them, so
      the interval is at least a second and the attempts fit in the run. */
  lemma QuantizedShape(amount: real, seconds: nat)
    requires seconds > 0 && BuildPlan(amount, seconds).mode == Quantized
    ensures var p := BuildPlan(amount, seconds);
      && p.slice == 1.0
      && (amount < 1.0 ==> p.count == 0)
      && (amount >= 1.0 ==> p.count == amount.Floor)
      && p.count < seconds
      && (p.count > 0 ==> 1 <= p.interval
                          && p.count * p.interval <= seconds < p.count * (p.interval + 1))
  {
    ModeSelection(amount, seconds);
    BelowRate(amount, seconds);
    var p := BuildPlan(amount, seconds);
    if p.count > 0 {
      assert p.count as real <= amount;
      EvenSplit(seconds, p.count);
    }
  }

  /** An amount per second below 0.995 means an amount below 0.995 times
      the run time. */
  lemma BelowRate(amount: real, seconds: nat)
    requires seconds > 0 && amount / seconds as real < 0.995
    ensures amount < 0.995 * seconds as real
  {
    var rate := amount / seconds as real;
    assert amount == rate * seconds as real;
  }

  /** Dividing a run time evenly between n attempts, rounded down. */
  lemma EvenSplit(seconds: nat, n: nat)
    requires 0 < n < seconds
    ensures 1 <= seconds / n
    ensures n * (seconds / n) <= seconds < n * (seconds / n + 1)
  {
    assert seconds == n * (seconds / n) + seconds % n;
  }

  /** A plan that schedules anything schedules at most the amount: count
      times slice never exceeds it (and equals it in linear mode). */
  lemma PlanWithinBudget(amount: real, seconds: nat)
    ensures var p := BuildPlan(amount, seconds);
      p.count > 0 ==> 0.0 < p.slice && p.count as real * p.slice <= amount
  {
    if seconds > 0 {
      if BuildPlan(amount, seconds).mode == Linear {
        LinearShape(amount, seconds);
      } else {
        QuantizedShape(amount, seconds);
      }
    }
  }

  /** A plan is empty exactly when the run time is zero or the amount per
      second is below 0.995 and the amount below one unit. */
  lemma EmptyPlan(amount: real, seconds: nat)
    ensures BuildPlan(amount, seconds).count == 0
            <==> seconds == 0 || (amount / seconds as real < 0.995 && amount < 1.0)
  {
    if seconds > 0 {
      ModeSelection(amount, seconds);
      if BuildPlan(amount, seconds).mode == Quantized {
        QuantizedShape(amount, seconds);
      }
    }
  }

  /** Three plans: 100 over 50 seconds is 50 linear slices of 2; half a
      unit over an hour rounds to a rate of zero and holds no whole unit, so
      nothing is planned; 5 over an hour is 5 units 720 seconds apart. */
  lemma PlanExamples()
    ensures BuildPlan(100.0, 50) == Plan(Linear, 50, 2.0, 1)
    ensures BuildPlan(0.5, 3600).count == 0
    ensures BuildPlan(5.0, 3600) == Plan(Quantized, 5, 1.0, 720)
  {
    assert RatePerSecond(100.0, 50) == 2.0;
    assert RatePerSecond(0.5, 3600) == 0.0;
    assert RatePerSecond(5.0, 3600) == 0.0;
  }

  /** What running a plan relies on: slices of zero or more, whole units
      in quantized mode, a budget that covers every planned slice, and
      attempts and pauses that fit in the run time. */
  predicate Feasible(p: Plan, amount: real, seconds: nat) {
    && 0.0 <= p.slice
    && (p.mode == Quantized ==> p.slice == 1.0)
    && (p.count > 0 ==> p.slice * p.count as real <= amount)
    && (p.mode == Linear ==> p.count == seconds)
    && (p.mode == Quantized ==> p.count * p.interval <= seconds)
  }

  /** Every plan the script builds is feasible for its amount and run
      time, whatever the amount (even a negative one) and the run time. */
  lemma BuiltPlanFeasible(amount: real, seconds: nat)
    ensures Feasible(BuildPlan(amount, seconds), amount, seconds)
  {
    PlanWithinBudget(amount, seconds);
    if seconds > 0 {
      if BuildPlan(amount, seconds).mode == Linear {
        LinearShape(amount, seconds);
      } else {
        QuantizedShape(amount, seconds);
      }
    }
  }
}

=== FILE: preflight.dfy ===
/** The one-time checks the buyer script makes before it plans anything
    (scripts/binance_buyer.go, main): the side, the quote asset of the
    symbol, the balance that funds the run and the amount to spend. */
module Preflight {
  import opened Wrappers

  /** The only quote asset the script trades against. */
  const QuoteAsset: string := "USDT"

  datatype Side = Buy | Sell

  /** One entry of the account's balance list: an asset and its free amount. */
  datatype Balance = Balance(asset: string, free: real)

  /** The outcome of the checks: the side, the quote amount the account can
      fund and the amount the run will spend. */
  datatype Funding = Funding(side: Side, available: real, amount: real)

  /** Upper-casing of one rune as strings.ToUpper does it, as far as the
      result can be an ASCII letter: a-z, the dotless i (U+0131) and the long
      s (U+017F). Every other rune upper-cases to a rune outside ASCII or to
      itself; this model keeps it unchanged. */
  function UpperRune(c: char): char {
    if 'a' <= c <= 'z' then (c as int - 32) as char
    else if c == '\U{0131}' then 'I'
    else if c == '\U{017F}' then 'S'
    else c
  }

  function ToUpper(s: string): (u: string)
    ensures |u| == |s|
    ensures forall i :: 0 <= i < |s| ==> u[i] == UpperRune(s[i])
  {
    if s == [] then [] else [UpperRune(s[0])] + ToUpper(s[1..])
  }

  /** The side flag, upper-cased, must read BUY or SELL. */
  function ParseSide(side: string): Result<Side> {
    var upper := ToUpper(side);
    if upper == "BUY" then Ok(Buy)
    else if upper == "SELL" then Ok(Sell)
    else Err(InvalidSide)
  }

  predicate HasSuffix(s: string, suffix: string) {
    |suffix| <= |s| && s[|s| - |suffix|..] == suffix
  }

  /** strings.TrimSuffix: s without suffix when s ends with it, else s. */
  function TrimSuffix(s: string, suffix: string): (r: string)
    ensures HasSuffix(s, suffix) ==> r + suffix == s
    ensures !HasSuffix(s, suffix) ==> r == s
  {
    if HasSuffix(s, suffix) then s[..|s| - |suffix|] else s
  }

  /** The free amount of the first balance entry for asset; the lookup fails
      when no entry carries it. */
  function LookupFree(balances: seq<Balance>, asset: string): (r: Result<real>)
    ensures r.Err? ==> r.error == BalanceNotFound(asset)
  {
    if balances == [] then Err(BalanceNotFound(asset))
    else if balances[0].asset == asset then Ok(balances[0].free)
    else LookupFree(balances[1..], asset)
  }

  /** GetAssetBalance / GetUSDTBalance: scan the balances in order and
      return the free amount of the first entry whose asset matches. */
  method AssetBalance(balances: seq<Balance>, asset: string) returns (r: Result<real>)
    ensures r == LookupFree(balances, asset)
    ensures r.Err? <==> forall k :: 0 <= k < |balances| ==> balances[k].asset != asset
    ensures r.Err? ==> r.error == BalanceNotFound(asset)
    ensures r.Ok? ==> exists k :: 0 <= k < |balances| && balances[k].asset == asset
                                  && r.value == balances[k].free
                                  && forall j :: 0 <= j < k ==> balances[j].asset != asset
  {
    var i := 0;
    while i < |balances|
      invariant 0 <= i <= |balances|
      invariant LookupFree(balances[i..], asset) == LookupFree(balances, asset)
      invariant forall j :: 0 <= j < i ==> balances[j].asset != asset
    {
      if balances[i].asset == asset {
        return Ok(balances[i].free);
      }
      i := i + 1;
    }
    return Err(BalanceNotFound(asset));
  }

  /** The amount to spend: everything available unless a positive amount
      was requested, which must not exceed what is available. */
  function ChooseAmount(available: real, requested: real): (r: Result<real>)
    ensures r.Ok? ==> r.value <= available
    ensures r.Ok? && requested > 0.0 ==> r.value == requested
    ensures requested <= 0.0 ==> r == Ok(available)
    ensures r.Err? <==> 0.0 < requested && available < requested
    ensures r.Err? ==> r.error == InsufficientFunds
  {
    if requested > 0.0 then
      if requested > available then Err(InsufficientFunds) else Ok(requested)
    else
      Ok(available)
  }

  /** The asset whose balance funds the run: USDT for BUY, the symbol
      without its USDT suffix (the base asset) for SELL. */
  function FundingAsset(side: Side, symbol: string): string {
    if side == Buy then QuoteAsset else TrimSuffix(symbol, QuoteAsset)
  }

  /** The funds in quote terms: the USDT balance for BUY, the base balance
      times the current price for SELL. */
  function AvailableQuote(side: Side, balance: real, price: real): real {
    if side == Buy then balance else balance * price
  }

  /** The checks in the order the script makes them: side, quote asset,
      price, balance, amount. The price and the account are the venue's
      answers, None when the request failed. A SELL run is funded by the
      base asset's balance valued at the current price. */
  function CheckFunding(side: string, symbol: string, requested: real,
                        price: Option<real>, account: Option<seq<Balance>>): Result<Funding>
  {
    match ParseSide(side)
    case Err(e) => Err(e)
    case Ok(s) =>
      if !HasSuffix(symbol, QuoteAsset) then Err(UnsupportedQuote)
      else if price.None? then Err(PriceUnavailable)
      else if account.None? then Err(AccountUnavailable)
      else
        match LookupFree(account.value, FundingAsset(s, symbol))
        case Err(e) => Err(e)
        case Ok(balance) =>
          var available := AvailableQuote(s, balance, price.value);
          match ChooseAmount(available, requested)
          case Err(e) => Err(e)
          case Ok(amount) => Ok(Funding(s, available, amount))
  }

  /** The pre-flight part of main: each check in turn, the first that
      fails ends the script; the balance comes from the lookup loop. It
      follows CheckFunding step by step so that the loop runs; its ensures
      ties the two together. */
  method Prepare(side: string, symbol: string, requested: real,
                 price: Option<real>, account: Option<seq<Balance>>) returns (r: Result<Funding>)
    ensures r == CheckFunding(side, symbol, requested, price, account)
  {
    var s := ParseSide(side);
    if s.Err? {
      return Err(s.error);
    }
    if !HasSuffix(symbol, QuoteAsset) {
      return Err(UnsupportedQuote);
    }
    if price.None? {
      return Err(PriceUnavailable);
    }
    if account.None? {
      return Err(AccountUnavailable);
    }
    ghost var balance := LookupFree(account.value, FundingAsset(s.value, symbol));
    var available: real;
    if s.value == Buy {
      var usdt := AssetBalance(account.value, QuoteAsset);
      assert usdt == balance;
      if usdt.Err? {
        return Err(usdt.error);
      }
      available := usdt.value;
    } else {
      var base := AssetBalance(account.value, TrimSuffix(symbol, QuoteAsset));
      assert base == balance;
      if base.Err? {
        return Err(base.error);
      }
      available := base.value * price.value;
    }
    assert balance.Ok? && available == AvailableQuote(s.value, balance.value, price.value);
    var amount := ChooseAmount(available, requested);
    if amount.Err? {
      return Err(amount.error);
    }
    return Ok(Funding(s.value, available, amount.value));
  }

  /** The lookup answers with the first matching entry. */
  lemma {:induction false} LookupFindsFirst(balances: seq<Balance>, asset: string, k: nat)
    requires k < |balances| && balances[k].asset == asset
    requires forall j :: 0 <= j < k ==> balances[j].asset != asset
    ensures LookupFree(balances, asset) == Ok(balances[k].free)
  {
    if k > 0 {
      LookupFindsFirst(balances[1..], asset, k - 1);
    }
  }

  /** The lookup fails exactly when no entry carries the asset. */
  lemma {:induction false} LookupMissing(balances: seq<Balance>, asset: string)
    ensures (forall k :: 0 <= k < |balances| ==> balances[k].asset != asset)
            <==> LookupFree(balances, asset) == Err(BalanceNotFound(asset))
  {
    if balances != [] {
      LookupMissing(balances[1..], asset);
      if balances[0].asset != asset {
        assert forall k :: 1 <= k < |balances| ==> balances[k] == balances[1..][k - 1];
      }
    }
  }

  /** The side is accepted in any mix of cases (and with the long s, which
      upper-cases to S); nothing else is accepted. */
  lemma ParseSideAccepts(side: string)
    ensures ParseSide(side) == Ok(Buy)
            <==> |side| == 3 && side[0] in "bB" && side[1] in "uU" && side[2] in "yY"
    ensures ParseSide(side) == Ok(Sell)
            <==> |side| == 4 && side[0] in "sS\U{017F}" && side[1] in "eE"
                 && side[2] in "lL" && side[3] in "lL"
    ensures ParseSide(side).Err? ==> ParseSide(side).error == InvalidSide
  {
    var upper := ToUpper(side);
    if |side| == 3 {
      assert upper == "BUY" <==> upper[0] == 'B' && upper[1] == 'U' && upper[2] == 'Y';
    }
    if |side| == 4 {
      assert upper == "SELL" <==> upper[0] == 'S' && upper[1] == 'E' && upper[2] == 'L' && upper[3] == 'L';
    }
  }

  /** What passing the checks guarantees: a recognised side, a symbol
      quoted in USDT, an amount that never exceeds what is available, and
      the balance that funds each side. */
  lemma CheckFundingAccepts(side: string, symbol: string, requested: real,
                            price: Option<real>, account: Option<seq<Balance>>)
    requires CheckFunding(side, symbol, requested, price, account).Ok?
    ensures var f := CheckFunding(side, symbol, requested, price, account).value;
      && ParseSide(side) == Ok(f.side)
      && HasSuffix(symbol, QuoteAsset)
      && price.Some? && account.Some?
      && f.amount <= f.available
      && (requested <= 0.0 ==> f.amount == f.available)
      && (requested > 0.0 ==> f.amount == requested)
      && (f.side == Buy ==> f.available == LookupFree(account.value, QuoteAsset).value)
      && (f.side == Sell ==>
            f.available == LookupFree(account.value, TrimSuffix(symbol, QuoteAsset)).value * price.value)
  {
  }

  /** The checks fail in the script's order: a bad side before anything
      else, a foreign quote asset before any venue request, then a failed
      price request, a failed account request, a missing balance entry, and
      an amount above the available funds once both reads succeeded. */
  lemma CheckFundingRejects(side: string, symbol: string, requested: real,
                            price: Option<real>, account: Option<seq<Balance>>)
    ensures ParseSide(side).Err? ==>
      CheckFunding(side, symbol, requested, price, account) == Err(InvalidSide)
    ensures ParseSide(side).Ok? && !HasSuffix(symbol, QuoteAsset) ==>
      CheckFunding(side, symbol, requested, price, account) == Err(UnsupportedQuote)
    ensures ParseSide(side).Ok? && HasSuffix(symbol, QuoteAsset) && price.None? ==>
      CheckFunding(side, symbol, requested, price, account) == Err(PriceUnavailable)
    ensures ParseSide(side).Ok? && HasSuffix(symbol, QuoteAsset) && price.Some? && account.None? ==>
      CheckFunding(side, symbol, requested, price, account) == Err(AccountUnavailable)
    ensures ParseSide(side).Ok? && HasSuffix(symbol, QuoteAsset) && price.Some? && account.Some?
            && LookupFree(account.value, FundingAsset(ParseSide(side).value, symbol)).Err? ==>
      CheckFunding(side, symbol, requested, price, account)
      == Err(BalanceNotFound(FundingAsset(ParseSide(side).value, symbol)))
    ensures ParseSide(side).Ok? && HasSuffix(symbol, QuoteAsset) && price.Some? && account.Some?
            && LookupFree(account.value, FundingAsset(ParseSide(side).value, symbol)).Ok?
            && 0.0 < requested
            && AvailableQuote(ParseSide(side).value,
                              LookupFree(account.value, FundingAsset(ParseSide(side).value, symbol)).value,
                              price.value) < requested ==>
      CheckFunding(side, symbol, requested, price, account) == Err(InsufficientFunds)
  {
    ParseSideAccepts(side);
  }

  /** Passing every check lets the run through: a recognised side, a
      symbol quoted in USDT, both reads present, a balance entry for the
      funding asset and a request that is not positive or is affordable
      give Ok, with the funds and the amount the script settles on. */
  lemma CheckFundingPasses(side: string, symbol: string, requested: real,
                           price: Option<real>, account: Option<seq<Balance>>)
    requires ParseSide(side).Ok? && HasSuffix(symbol, QuoteAsset)
    requires price.Some? && account.Some?
    requires LookupFree(account.value, FundingAsset(ParseSide(side).value, symbol)).Ok?
    requires var available := AvailableQuote(ParseSide(side).value,
                                LookupFree(account.value, FundingAsset(ParseSide(side).value, symbol)).value,
                                price.value);
      requested <= 0.0 || requested <= available
    ensures var available := AvailableQuote(ParseSide(side).value,
                               LookupFree(account.value, FundingAsset(ParseSide(side).value, symbol)).value,
                               price.value);
      CheckFunding(side, symbol, requested, price, account)
      == Ok(Funding(ParseSide(side).value, available, if requested > 0.0 then requested else available))
  {
  }
}

=== FILE: wrappers.dfy ===
/** Option and Result values shared by the scheduler model, and the fatal
    conditions the buyer script reports before it places any order. */
module Wrappers {

  datatype Option<+T> = None | Some(value: T)

  /** Every condition on which the script stops with a fatal log line. */
  datatype Error =
    | InvalidFormat               // the duration text does not match digits + one unit letter
    | InvalidNumber               // the digits do not fit a signed 64-bit integer
    | InvalidUnit                 // the unit letter passes the pattern but has no multiplier
    | InvalidSide                 // the side is neither BUY nor SELL after upper-casing
    | UnsupportedQuote            // the symbol does not end with the quote asset
    | PriceUnavailable            // the ticker price request failed
    | AccountUnavailable          // the account request failed
    | BalanceNotFound(asset: string) // no balance entry carries the asset
    | InsufficientFunds           // the requested amount exceeds what is available

  datatype Result<+T> = Ok(value: T) | Err(error: Error)
}
